=== FILE: README.md ===
# Lesson browser view state — a Dafny model

The language-learning front end (`finalFront/src/pages/main/MainPage.jsx`) shows a
catalog of lessons. The user can filter the catalog by language and by level, open a
lesson, and step through its scenes. The position in the lesson is kept in browser
storage, so it survives a page reload. This project models that view state as pure
functions over immutable data and proves properties about it.

- `Lessons` (`lessons.dfy`): the `Lesson` and `Scene` records the catalog endpoint
  delivers, and `FindLesson`, the first lesson with a given id (`lessons.find`).
- `FilterEngine` (`filter_engine.dfy`): the options of the language and level selects
  (`'All'` followed by the distinct values, `new Set` order) and the filtered lesson list.
- `SceneNavigator` (`scene_navigator.dfy`): the `{lessonId, sceneIndex}` pointer and
  the handlers `openLessonScene`, `nextScene` and `prevScene`.
- `PointerCodec` (`pointer_codec.dfy`): the text stored for a pointer. `Encode` writes
  what `JSON.stringify` writes for integer fields. `Decode` reads that text back, and
  also reads `null`.
- `Persistence` (`persistence.dfy`): storage as a `map<string, string>`. It has the
  initial read of the `activeScene` key and the effect that writes the pointer back
  (or removes the key).
- `ViewController` (`view_controller.dfy`): the page as a state machine. `Present`
  picks what is shown: spinner, error, scene view, blank page or catalog. `Enabled`
  says which events the shown view offers. `Step` runs one event's handler and then the
  write-back effect. `Mount` is page start, and `Run` applies a sequence of events.
- `Scenarios` (`scenarios.dfy`): concrete runs. One has a Spanish lesson with two
  scenes and a French lesson with one. The other has an empty catalog.
- `Sequences` (`sequences.dfy`): `FirstIndex`, the position of a value's first occurrence,
  used by the option order and by the pointer text's field split.
- `Wrappers` (`wrappers.dfy`): `Option` and `Result`.

In these places the page behaves in ways a reader might not expect; the model follows
the code:

- A stored pointer whose lesson or scene does not resolve makes the page render
  nothing (`return null`). The page does not fall back to the catalog, and no control
  is left to leave that state (`StalePointerRendersNothing`, `BlankIsFinal`).
- Stored text that cannot be parsed is not treated as absent. `JSON.parse` throws and
  the page cannot start. `Restore` and `Mount` return `Err` for such text, and for any
  other non-empty text than `null` and the shape the page writes (see "Left out").
- `openLessonScene` does not check its arguments. Opening a lesson that has no scenes
  gives a blank page (`OpenShowsFirstScene`).
- The select options hold `'All'` twice when a lesson's language (or level) is the
  literal text `"All"`. So the options are duplicate-free exactly when no lesson has
  that value (`Languages`, `Levels`).
- A failed request whose message is the empty string is not shown (`if (error)` is
  false for `""`). The page then goes on with an empty lesson list (`SilentFailure`).

## Model

| member | source | states |
|---|---|---|
| Lessons.FindLesson | finalFront/src/pages/main/MainPage.jsx:58 | gives `None` exactly when no lesson has the id; otherwise the lesson it gives has that id and no earlier lesson has it |
| FilterEngine.Distinct | finalFront/src/pages/main/MainPage.jsx:40-41 | the result has no duplicate, holds exactly the values of the input, and lists them in order of first appearance |
| FilterEngine.DistinctValues | finalFront/src/pages/main/MainPage.jsx:40 | scanning left to right and adding unseen values to a set gives exactly `Distinct` of the input, the order in which a `Set` iterates |
| FilterEngine.Languages | finalFront/src/pages/main/MainPage.jsx:40 | the language options start with `All`, the rest is the distinct lesson languages, an empty catalog gives `[All]`, a value is offered iff it is `All` or some lesson's language, and the list has no duplicate iff no lesson's language is `"All"` |
| FilterEngine.Levels | finalFront/src/pages/main/MainPage.jsx:41 | the same for the level options and the lessons' difficulty |
| FilterEngine.FilteredLessons | finalFront/src/pages/main/MainPage.jsx:43-47 | a lesson is listed iff it is in the catalog and (the language filter is `All` or equals its language) and (the level filter is `All` or equals its difficulty); the list is no longer than the catalog |
| FilterEngine.FilteredLessonsOrdered | finalFront/src/pages/main/MainPage.jsx:43 | the filtered list is a subsequence of the catalog, so the catalog order is kept |
| FilterEngine.FilteredLessonsCounts | finalFront/src/pages/main/MainPage.jsx:43-47 | every matching lesson occurs in the filtered list as often as in the catalog, and no other lesson occurs |
| FilterEngine.FilterAllIsIdentity | finalFront/src/pages/main/MainPage.jsx:43-47 | with both filters at `All` the filtered list is the whole catalog |
| SceneNavigator.OpenLessonScene | finalFront/src/pages/main/MainPage.jsx:49-51 | builds `{lessonId, sceneIndex}` from its arguments, index 0 by default, without checking them; its effect on the page is stated by `ViewController.OpenFromCatalog` and `ViewController.OpenShowsFirstScene` |
| SceneNavigator.NextScene | finalFront/src/pages/main/MainPage.jsx:57-62 | keeps the lesson id, raises the index by at most one, moves only when the lesson exists, and a pointer in range stays in range |
| SceneNavigator.PrevScene | finalFront/src/pages/main/MainPage.jsx:64-68 | keeps the lesson id, lowers the index by at most one, and never takes a non-negative index below zero |
| SceneNavigator.NextSceneMoves | finalFront/src/pages/main/MainPage.jsx:57-62 | `nextScene` changes the pointer iff the lesson exists and the index is below its last scene, and then it adds exactly one |
| SceneNavigator.PrevSceneMoves | finalFront/src/pages/main/MainPage.jsx:64-68 | `prevScene` changes the pointer iff the index is positive, and then it subtracts exactly one; it keeps a pointer that resolves resolving |
| SceneNavigator.NextThenPrev | finalFront/src/pages/main/MainPage.jsx:57-68 | from any scene but the last, next then previous gives back the same pointer |
| SceneNavigator.PrevThenNext | finalFront/src/pages/main/MainPage.jsx:57-68 | from any scene but the first, previous then next gives back the same pointer |
| PointerCodec.IntRoundTrip | finalFront/src/pages/main/MainPage.jsx:34 | the numeral written for an integer parses back to that integer |
| PointerCodec.IntHasNoComma | finalFront/src/pages/main/MainPage.jsx:34 | the numeral written for an integer holds no comma, so the stored text splits unambiguously into its two fields |
| PointerCodec.Encode | finalFront/src/pages/main/MainPage.jsx:34 | the text written for a pointer (the `JSON.stringify` shape for integer fields) decodes back to that same pointer |
| PointerCodec.Decode | finalFront/src/pages/main/MainPage.jsx:13 | the text `null` and only it reads as null; text read as a pointer is exactly `{"lessonId":` + a numeral + `,"sceneIndex":` + a numeral + `}`, the shape `Encode` writes, and the pointer's fields are the values of those two numerals |
| PointerCodec.EncodeInjective | finalFront/src/pages/main/MainPage.jsx:34 | different pointers are stored as different text |
| PointerCodec.EncodeIsObjectText | finalFront/src/pages/main/MainPage.jsx:12-13 | stored pointer text is non-empty and is not `null`, so the initial read takes the parse branch and gets a pointer |
| Persistence.Restore | finalFront/src/pages/main/MainPage.jsx:11-14 | no pointer iff the key is missing, its text is empty (falsy) or is `null`; failure iff the text is non-empty and does not parse (`JSON.parse` throws); a restored pointer is what the stored text says |
| Persistence.Persist | finalFront/src/pages/main/MainPage.jsx:32-38 | the effect touches no other key, and the key is absent iff the pointer is null |
| Persistence.PersistRestore | finalFront/src/pages/main/MainPage.jsx:11-38 | after the effect has run for any pointer or null, a fresh initial read yields exactly that pointer or null |
| Persistence.SyncedRestores | finalFront/src/pages/main/MainPage.jsx:11-14 | a store holding the text of a pointer, or lacking the key, is read back as that pointer, or as null |
| ViewController.Present | finalFront/src/pages/main/MainPage.jsx:70-87 | loading beats error, error beats the pointer; after that the page is the scene view iff the pointer resolves, blank iff a pointer is set that does not resolve, and the catalog iff no pointer is set; the catalog offers `Languages` and `Levels` of the loaded lessons and lists `FilteredLessons` under the current filters (:200, :212, :223) |
| ViewController.SceneViewShowsPointer | finalFront/src/pages/main/MainPage.jsx:83-87 | the scene view shows scene `sceneIndex` of the first lesson whose id is `lessonId` |
| ViewController.NavigationButtons | finalFront/src/pages/main/MainPage.jsx:160-173 | Back is disabled iff `prevScene` would not move, and Next is disabled iff `nextScene` would not move |
| ViewController.NavigationStaysInScene | finalFront/src/pages/main/MainPage.jsx:57-68 | an enabled Next or Back stays in the scene view of the same lesson, one scene further or one scene back |
| ViewController.FiltersKeepPointer | finalFront/src/pages/main/MainPage.jsx:195-215 | choosing a filter value changes neither the pointer, nor the load state, nor storage, and the page stays in the catalog |
| ViewController.OpenFromCatalog | finalFront/src/pages/main/MainPage.jsx:49-51 | opening a listed lesson sets the pointer to scene 0 of that id and stores it, so a reload restores it |
| ViewController.OpenShowsFirstScene | finalFront/src/pages/main/MainPage.jsx:49-51 | after opening a listed lesson the scene view appears iff the first lesson with that id has a scene, and it then shows that lesson at index 0; otherwise the page is blank |
| ViewController.CatalogEntryExists | finalFront/src/pages/main/MainPage.jsx:222-227 | a lesson can be opened only from the catalog, and only for an id that the loaded lessons contain |
| ViewController.CloseToCatalog | finalFront/src/pages/main/MainPage.jsx:53-55 | closing the scene view shows the catalog and removes the stored key, so a reload starts with no pointer |
| ViewController.StalePointerRendersNothing | finalFront/src/pages/main/MainPage.jsx:83-87 | a restored pointer whose lesson is missing from the loaded catalog is kept, and the page renders nothing |
| ViewController.BlankIsFinal | finalFront/src/pages/main/MainPage.jsx:87 | once the page renders nothing, no sequence of events changes it |
| ViewController.SilentFailure | finalFront/src/pages/main/MainPage.jsx:76 | a failure with an empty message is presented exactly like a loaded empty catalog |
| ViewController.StepAvoidsBlank | finalFront/src/pages/main/MainPage.jsx:57-87 | once loaded, no event turns a non-blank page blank, except opening a lesson that has no scenes |
| ViewController.Mount | finalFront/src/pages/main/MainPage.jsx:11-38 | page start fails iff the stored text is non-empty and is neither `null` nor the shape the page writes (which covers all text `JSON.parse` rejects); otherwise it starts loading with both filters at `All` and the restored pointer, and storage agrees with that pointer; no storage key other than `activeScene` is added, removed or changed |
| ViewController.Apply | finalFront/src/pages/main/MainPage.jsx:22-68 | the request outcome changes only the load state and sets it to the lessons (:22) or the failure message (:24); a select changes only its filter and sets it to the chosen value (:198, :210); the scene actions change only the pointer: opening sets `{id, 0}`, closing clears it, Next and Back set it to `nextScene`/`prevScene` of the held pointer and do nothing without one |
| ViewController.Enabled | finalFront/src/pages/main/MainPage.jsx:96-227 | a user control exists only in the catalog or the scene view; close is offered exactly in the scene view (:96-101); Back and Next only there, and with a pointer shown each is enabled iff pressing it changes the session (:160-173); a select accepts only a value among `Languages`/`Levels` of the loaded lessons (:195-215); a lesson can be opened only with no pointer set and only when a lesson with that id is listed under the current filters (:222-227) |
| ViewController.Step | finalFront/src/pages/main/MainPage.jsx:32-68 | an event the shown view does not offer changes nothing; an offered one applies its handler; storage stays in step with the pointer and no other key is touched |
| ViewController.RunSynced | finalFront/src/pages/main/MainPage.jsx:32-38 | any sequence of events leaves storage agreeing with the pointer |
| ViewController.ReloadRestoresPointer | finalFront/src/pages/main/MainPage.jsx:11-38 | after page start and any events, reading storage afresh yields the pointer the page holds |
| ViewController.RunKeepsOtherKeys | finalFront/src/pages/main/MainPage.jsx:32-38 | no event touches a storage key other than `activeScene` |
| Scenarios.FilterSpanish | finalFront/src/pages/main/MainPage.jsx:43-47 | with a Spanish lesson A and a French lesson B, the Spanish filter keeps `[A]` |
| Scenarios.SelectSpanish | finalFront/src/pages/main/MainPage.jsx:195-200 | Spanish is offered by the language select, and choosing it lists only A |
| Scenarios.OpenA | finalFront/src/pages/main/MainPage.jsx:49-51 | opening A from that catalog shows its scene 0 |
| Scenarios.NextOnA | finalFront/src/pages/main/MainPage.jsx:57-62 | Next from scene 0 of A reaches scene 1, and storage then holds scene 1 |
| Scenarios.LastSceneOfA | finalFront/src/pages/main/MainPage.jsx:160-173 | at scene 1 of A the Next button is disabled and a further press changes nothing |
| Scenarios.EmptyCatalog | finalFront/src/pages/main/MainPage.jsx:40-47 | an empty catalog offers only `All` in both selects and lists no lesson |

## Left out

- The catalog request (`fetch`, `async`/`await`, `try`/`catch`/`finally`) is network I/O. It appears only as its outcome: the events `FetchSucceeded(lessons)` and `FetchFailed(message)`, possible only while loading.
- A response body that is not an array of lessons is not modelled. Neither is a lesson without a `scenes` array or a scene without media arrays.
- Lesson `language` and `difficulty` are modelled as strings. The backend allows them to be null, and null values are not modelled.
- Ids and scene indices are unbounded integers. JavaScript numbers are doubles, and non-integer or very large values are not modelled.
- Persistence.Restore: stored text is recognised only in the shape the page writes (`{"lessonId":N,"sceneIndex":M}` with integer numerals) or as `null`. Any other text counts as unparsable. `JSON.parse` would accept other valid JSON (whitespace, extra fields, other number forms) and yield an unchecked value.
- ViewController.Mount: page start fails for the same text `Restore` rejects, so it is narrower than the page. The page starts with text such as `0` or `{}` that `JSON.parse` accepts: `0` is falsy and gives the catalog with the key removed by the effect, and `{}` gives a blank page.
- Browser storage is a map. Storage that refuses a write (quota) or is unavailable is not modelled.
- React's scheduling of state updates and effects is simplified. The write-back effect runs once at page start and after every change of the pointer's value. Reopening the pointer already held would rewrite the same text, which leaves the store unchanged.
- The JSX rendering is out of scope: the media lists, the header and the catalog markup. The date shown for each lesson (`toLocaleDateString`) depends on locale and clock, so it is out too.
- The backend (Django models, serializers, views, admin, URLs) is declarative configuration. It has no logic of its own. The scene `order` field it sends is not used by the page.

=== FILE: filter_engine.dfy ===
/**
 * The catalog filters: the option lists of the language and level selects
 * (`'All'` followed by the distinct values seen in the lessons) and the
 * filtered lesson list.
 */
module FilterEngine {
  import opened Lessons
  import opened Sequences

  /** The sentinel option that disables a filter dimension. */
  const All: string := "All"

  /** No value occurs twice in `xs`. */
  predicate NoDuplicates(xs: seq<string>)
  {
    forall i, j :: 0 <= i < j < |xs| ==> xs[i] != xs[j]
  }

  /**
   * The values of `xs` with duplicates removed, each kept at its first
   * appearance: the iteration order of `new Set(xs)`.
   */
  function Distinct(xs: seq<string>): (r: seq<string>)
    ensures NoDuplicates(r)
    ensures forall x :: x in r <==> x in xs
    ensures forall i, j :: 0 <= i < j < |r| ==> FirstIndex(xs, r[i]) < FirstIndex(xs, r[j])
    decreases |xs|
  {
    if |xs| == 0 then []
    else
      var init := xs[..|xs| - 1];
      var last := xs[|xs| - 1];
      var d := Distinct(init);
      assert xs == init + [last];
      assert forall x :: x in xs <==> x in init || x == last;
      forall x | x in init
        ensures FirstIndex(xs, x) == FirstIndex(init, x)
      {
        FirstIndexAppend(init, [last], x);
      }
      if last in d then d
      else
        var r := d + [last];
        FirstIndexAppend(init, [last], last);
        assert FirstIndex(xs, last) == |init|;
        forall i | 0 <= i < |d|
          ensures FirstIndex(xs, d[i]) < |init|
        {
          FirstIndexBound(init, d[i]);
        }
        r
  }

  /**
   * `new Set(xs)` spread into an array: insertion into a set while scanning
   * left to right, keeping each value the first time it is seen.
   */
  method DistinctValues(xs: seq<string>) returns (r: seq<string>)
    ensures r == Distinct(xs)
  {
    var seen: set<string> := {};
    r := [];
    var i := 0;
    while i < |xs|
      invariant 0 <= i <= |xs|
      invariant r == Distinct(xs[..i])
      invariant seen == set x | x in r
    {
      assert xs[..i + 1][..i] == xs[..i];
      if xs[i] !in seen {
        seen := seen + {xs[i]};
        r := r + [xs[i]];
      }
      i := i + 1;
    }
    assert xs[..i] == xs;
  }

  /** The language of every lesson, in catalog order (`lessons.map(l => l.language)`). */
  function LanguageValues(lessons: seq<Lesson>): (r: seq<string>)
    ensures |r| == |lessons|
    ensures forall i :: 0 <= i < |lessons| ==> r[i] == lessons[i].language
  {
    seq(|lessons|, i requires 0 <= i < |lessons| => lessons[i].language)
  }

  /** The difficulty of every lesson, in catalog order. */
  function LevelValues(lessons: seq<Lesson>): (r: seq<string>)
    ensures |r| == |lessons|
    ensures forall i :: 0 <= i < |lessons| ==> r[i] == lessons[i].difficulty
  {
    seq(|lessons|, i requires 0 <= i < |lessons| => lessons[i].difficulty)
  }

  /** The shape of an option list `[All] + Distinct(values)`. */
  lemma OptionsShape(values: seq<string>)
    ensures ([All] + Distinct(values))[0] == All
    ensures ([All] + Distinct(values))[1..] == Distinct(values)
    ensures values == [] ==> [All] + Distinct(values) == [All]
    ensures forall v :: v in [All] + Distinct(values) <==> v == All || v in values
    ensures NoDuplicates([All] + Distinct(values)) <==> All !in values
  {
    var o := [All] + Distinct(values);
    if All in values {
      assert All in Distinct(values);
      var k :| 0 <= k < |Distinct(values)| && Distinct(values)[k] == All;
      assert o[0] == o[k + 1];
    }
    if values == [] {
      assert Distinct(values) == [];
    }
  }

  /** The language list holds exactly the lessons' languages. */
  lemma LanguageValuesMembers(lessons: seq<Lesson>)
    ensures forall v :: v in LanguageValues(lessons) <==>
                        exists i :: 0 <= i < |lessons| && lessons[i].language == v
  {
    var values := LanguageValues(lessons);
    forall v | v in values ensures exists i :: 0 <= i < |lessons| && lessons[i].language == v {
      var i :| 0 <= i < |values| && values[i] == v;
    }
  }

  /** The level list holds exactly the lessons' difficulties. */
  lemma LevelValuesMembers(lessons: seq<Lesson>)
    ensures forall v :: v in LevelValues(lessons) <==>
                        exists i :: 0 <= i < |lessons| && lessons[i].difficulty == v
  {
    var values := LevelValues(lessons);
    forall v | v in values ensures exists i :: 0 <= i < |lessons| && lessons[i].difficulty == v {
      var i :| 0 <= i < |values| && values[i] == v;
    }
  }

  /**
   * Options of the language select: `All` first, then every lesson language
   * once, in order of first appearance. The list has no duplicate exactly
   * when no lesson's language is the literal `"All"`.
   */
  function Languages(lessons: seq<Lesson>): (r: seq<string>)
    ensures |r| > 0 && r[0] == All
    ensures r[1..] == Distinct(LanguageValues(lessons))
    ensures lessons == [] ==> r == [All]
    ensures forall v :: v in r <==> v == All || exists i :: 0 <= i < |lessons| && lessons[i].language == v
    ensures NoDuplicates(r) <==> forall i :: 0 <= i < |lessons| ==> lessons[i].language != All
  {
    OptionsShape(LanguageValues(lessons));
    LanguageValuesMembers(lessons);
    [All] + Distinct(LanguageValues(lessons))
  }

  /** Options of the level select, as `Languages` for the difficulty. */
  function Levels(lessons: seq<Lesson>): (r: seq<string>)
    ensures |r| > 0 && r[0] == All
    ensures r[1..] == Distinct(LevelValues(lessons))
    ensures lessons == [] ==> r == [All]
    ensures forall v :: v in r <==> v == All || exists i :: 0 <= i < |lessons| && lessons[i].difficulty == v
    ensures NoDuplicates(r) <==> forall i :: 0 <= i < |lessons| ==> lessons[i].difficulty != All
  {
    OptionsShape(LevelValues(lessons));
    LevelValuesMembers(lessons);
    [All] + Distinct(LevelValues(lessons))
  }

  /** A lesson passes both selected filters. */
  predicate Matches(language: string, level: string, lesson: Lesson)
  {
    && (language == All || lesson.language == language)
    && (level == All || lesson.difficulty == level)
  }

  /** `sub` can be obtained from `xs` by deleting elements (order kept). */
  ghost predicate IsSubsequence(sub: seq<Lesson>, xs: seq<Lesson>)
    decreases |xs|
  {
    if |sub| == 0 then true
    else if |xs| == 0 then false
    else (sub[0] == xs[0] && IsSubsequence(sub[1..], xs[1..])) || IsSubsequence(sub, xs[1..])
  }

  /** The lessons shown in the catalog for the selected filters. */
  function FilteredLessons(lessons: seq<Lesson>, language: string, level: string): (r: seq<Lesson>)
    ensures |r| <= |lessons|
    ensures forall l :: l in r <==> l in lessons && Matches(language, level, l)
    decreases |lessons|
  {
    if |lessons| == 0 then []
    else
      var rest := FilteredLessons(lessons[1..], language, level);
      assert lessons == [lessons[0]] + lessons[1..];
      if Matches(language, level, lessons[0]) then [lessons[0]] + rest else rest
  }

  /** The catalog keeps the lessons' order: it is a subsequence of them. */
  lemma {:induction false} FilteredLessonsOrdered(lessons: seq<Lesson>, language: string, level: string)
    ensures IsSubsequence(FilteredLessons(lessons, language, level), lessons)
    decreases |lessons|
  {
    if |lessons| > 0 {
      var rest := FilteredLessons(lessons[1..], language, level);
      FilteredLessonsOrdered(lessons[1..], language, level);
      if Matches(language, level, lessons[0]) {
        assert ([lessons[0]] + rest)[1..] == rest;
      }
    }
  }

  /**
   * The catalog keeps every matching lesson as often as it occurs and no
   * other lesson; with `FilteredLessonsOrdered` this pins the result down to
   * the subsequence of exactly the matching lessons.
   */
  lemma {:induction false} FilteredLessonsCounts(lessons: seq<Lesson>, language: string, level: string)
    ensures forall l :: multiset(FilteredLessons(lessons, language, level))[l] ==
                        if Matches(language, level, l) then multiset(lessons)[l] else 0
    decreases |lessons|
  {
    if |lessons| > 0 {
      FilteredLessonsCounts(lessons[1..], language, level);
      assert lessons == [lessons[0]] + lessons[1..];
    }
  }

  /** With both filters at `All` the catalog shows every lesson, in order. */
  lemma {:induction false} FilterAllIsIdentity(lessons: seq<Lesson>)
    ensures FilteredLessons(lessons, All, All) == lessons
    decreases |lessons|
  {
    if |lessons| > 0 {
      FilterAllIsIdentity(lessons[1..]);
      assert Matches(All, All, lessons[0]);
      assert FilteredLessons(lessons, All, All)
          == [lessons[0]] + FilteredLessons(lessons[1..], All, All);
      assert lessons == [lessons[0]] + lessons[1..];
    }
  }
}

=== FILE: lessons.dfy ===
/**
 * The lesson records the catalog endpoint delivers, and the lookup of a
 * lesson by its identifier (`lessons.find(l => l.id === id)`).
 */
module Lessons {
  import opened Wrappers

  /** One step of a lesson. Media assets are the URIs the renderer uses verbatim. */
  datatype Scene = Scene(
    title: string,
    content: string,
    audioFiles: seq<string>,
    images: seq<string>,
    videos: seq<string>)

  /** A lesson as delivered by the catalog endpoint; its scenes are in display order. */
  datatype Lesson = Lesson(
    id: int,
    title: string,
    language: string,
    difficulty: string,
    createdAt: string,
    scenes: seq<Scene>)

  /** Some lesson of `lessons` carries identifier `id`. */
  predicate HasLesson(lessons: seq<Lesson>, id: int)
  {
    exists i :: 0 <= i < |lessons| && lessons[i].id == id
  }

  /**
   * The first lesson whose identifier is `id`, or `None` when there is none,
   * as `Array.prototype.find` returns it.
   */
  function FindLesson(lessons: seq<Lesson>, id: int): (r: Option<Lesson>)
    ensures r.None? <==> !HasLesson(lessons, id)
    ensures r.Some? ==> r.value.id == id && r.value in lessons
    ensures r.Some? ==> exists i :: 0 <= i < |lessons| && lessons[i] == r.value
                                  && forall j :: 0 <= j < i ==> lessons[j].id != id
  {
    if |lessons| == 0 then None
    else if lessons[0].id == id then
      Some(lessons[0])
    else
      var r := FindLesson(lessons[1..], id);
      assert forall i :: 1 <= i < |lessons| ==> lessons[1..][i - 1] == lessons[i];
      if r.Some? then
        var k :| 0 <= k < |lessons[1..]| && lessons[1..][k] == r.value
                 && forall j :: 0 <= j < k ==> lessons[1..][j].id != id;
        assert lessons[k + 1] == r.value;
        assert forall j :: 0 <= j < k + 1 ==> lessons[j].id != id by {
          forall j | 0 <= j < k + 1 ensures lessons[j].id != id {
            if j > 0 { assert lessons[j] == lessons[1..][j - 1]; }
          }
        }
        r
      else
        r
  }
}

=== FILE: persistence.dfy ===
/**
 * Persistence of the active-scene pointer in browser storage, modelled as a
 * map from keys to text: the initial read and the write-back effect.
 */
module Persistence {
  import opened Wrappers
  import opened SceneNavigator
  import opened PointerCodec

  type Store = map<string, string>

  /** The storage key of the pointer. */
  const StorageKey: string := "activeScene"

  /** Startup cannot proceed: the stored text is not something the page can parse. */
  datatype StartupError = MalformedStoredPointer(text: string)

  /**
   * The initial pointer: absent or empty stored text gives `None`; otherwise
   * the text is parsed, and text that does not parse stops the page.
   */
  function Restore(store: Store): (r: Result<Option<Pointer>, StartupError>)
    ensures r == Ok(None) <==>
              || StorageKey !in store
              || store[StorageKey] == ""
              || Decode(store[StorageKey]).DecodedNull?
    ensures r.Err? <==>
              && StorageKey in store
              && store[StorageKey] != ""
              && Decode(store[StorageKey]).Unrecognised?
    ensures r.Ok? && r.value.Some? ==> Decode(store[StorageKey]) == DecodedPointer(r.value.value)
  {
    if StorageKey !in store || store[StorageKey] == "" then Ok(None)
    else match Decode(store[StorageKey])
      case DecodedNull => Ok(None)
      case DecodedPointer(p) => Ok(Some(p))
      case Unrecognised => Err(MalformedStoredPointer(store[StorageKey]))
  }

  /** The write-back effect: store a pointer's text, or remove the key for `None`. */
  function Persist(store: Store, active: Option<Pointer>): (r: Store)
    ensures forall k :: k != StorageKey ==> (k in r <==> k in store)
    ensures forall k :: k != StorageKey && k in r ==> r[k] == store[k]
    ensures active.None? <==> StorageKey !in r
  {
    match active
    case Some(p) => store[StorageKey := Encode(p)]
    case None => store - {StorageKey}
  }

  /** The store holds exactly what the write-back effect writes for `active`. */
  predicate Synced(store: Store, active: Option<Pointer>)
  {
    match active
    case Some(p) => StorageKey in store && store[StorageKey] == Encode(p)
    case None => StorageKey !in store
  }

  /** After the write-back effect, a fresh read yields the pointer that was written. */
  lemma PersistRestore(store: Store, active: Option<Pointer>)
    ensures Synced(Persist(store, active), active)
    ensures Restore(Persist(store, active)) == Ok(active)
  {
    SyncedRestores(Persist(store, active), active);
  }

  /** A store in step with the pointer restores that pointer. */
  lemma SyncedRestores(store: Store, active: Option<Pointer>)
    requires Synced(store, active)
    ensures Restore(store) == Ok(active)
  {
    if active.Some? {
      EncodeIsObjectText(active.value);
    }
  }
}

=== FILE: pointer_codec.dfy ===
/**
 * The text stored under the pointer key. `Encode` writes what
 * `JSON.stringify({lessonId, sceneIndex})` writes for integer fields;
 * `Decode` recognises that text and the literal `null`.
 */
module PointerCodec {
  import opened Wrappers
  import opened SceneNavigator
  import opened Sequences

  predicate IsDigit(c: char)
  {
    '0' <= c <= '9'
  }

  predicate AllDigits(s: string)
  {
    forall i :: 0 <= i < |s| ==> IsDigit(s[i])
  }

  function DigitChar(d: nat): (c: char)
    requires d < 10
    ensures IsDigit(c)
  {
    (48 + d) as char
  }

  function DigitValue(c: char): nat
    requires IsDigit(c)
  {
    c as int - 48
  }

  /** Decimal digits of `n`, most significant first, without leading zeros. */
  function NatToDigits(n: nat): string
    decreases n
  {
    if n < 10 then [DigitChar(n)] else NatToDigits(n / 10) + [DigitChar(n % 10)]
  }

  /** The value of a string of decimal digits. */
  function DigitsToNat(s: string): nat
    requires AllDigits(s)
    decreases |s|
  {
    if |s| == 0 then 0 else DigitsToNat(s[..|s| - 1]) * 10 + DigitValue(s[|s| - 1])
  }

  /** A JSON integer numeral without sign: `0`, or digits not starting with `0`. */
  predicate CanonicalDigits(s: string)
  {
    && |s| > 0
    && AllDigits(s)
    && (|s| > 1 ==> s[0] != '0')
  }

  lemma {:induction false} NatToDigitsCanonical(n: nat)
    ensures CanonicalDigits(NatToDigits(n))
    ensures DigitsToNat(NatToDigits(n)) == n
    decreases n
  {
    if n >= 10 {
      NatToDigitsCanonical(n / 10);
      var s := NatToDigits(n);
      var h := NatToDigits(n / 10);
      assert s == h + [DigitChar(n % 10)];
      assert s[..|s| - 1] == h;
      assert s[0] == h[0];
      if |h| == 1 {
        assert h[0] == DigitChar(n / 10);
        assert n / 10 != 0;
      }
    }
  }

  /** The numeral of `i` as `JSON.stringify` writes an integer. */
  function IntToString(i: int): string
  {
    if i < 0 then "-" + NatToDigits(-i) else NatToDigits(i)
  }

  /** Parses a JSON integer numeral: optional `-`, then canonical digits. */
  function ParseInt(s: string): Option<int>
  {
    if |s| > 0 && s[0] == '-' then
      if CanonicalDigits(s[1..]) then Some(0 - DigitsToNat(s[1..]) as int) else None
    else if CanonicalDigits(s) then Some(DigitsToNat(s))
    else None
  }

  /** A numeral holds no comma, so the first comma of the stored text ends the id field. */
  lemma IntHasNoComma(i: int)
    ensures ',' !in IntToString(i)
  {
    NatToDigitsCanonical(if i < 0 then -i else i);
  }

  /** A numeral reads back as the integer it was written from. */
  lemma IntRoundTrip(i: int)
    ensures ParseInt(IntToString(i)) == Some(i)
  {
    if i < 0 {
      NatToDigitsCanonical(-i);
      assert IntToString(i)[1..] == NatToDigits(-i);
    } else {
      NatToDigitsCanonical(i);
    }
  }

  const Prefix: string := "{\"lessonId\":"
  const Separator: string := ",\"sceneIndex\":"

  /** What parsing stored text yields. */
  datatype Decoded =
    | DecodedNull                    // the text `null`
    | DecodedPointer(p: Pointer)     // a pointer object
    | Unrecognised                   // anything else

  /**
   * Parses stored text: `null`, or exactly the shape `Encode` writes, an id
   * numeral and an index numeral between the fixed key texts.
   */
  function Decode(s: string): (r: Decoded)
    ensures r.DecodedNull? <==> s == "null"
    ensures r.DecodedPointer? ==>
              exists a, b :: && s == Prefix + a + Separator + b + "}"
                             && ParseInt(a) == Some(r.p.lessonId)
                             && ParseInt(b) == Some(r.p.sceneIndex)
  {
    if s == "null" then DecodedNull
    else if |s| > |Prefix| && s[..|Prefix|] == Prefix && s[|s| - 1] == '}' then
      var body := s[|Prefix|..|s| - 1];
      var k := FirstIndex(body, ',');
      FirstIndexBound(body, ',');
      var rest := body[k..];
      if |rest| >= |Separator| && rest[..|Separator|] == Separator then
        match (ParseInt(body[..k]), ParseInt(rest[|Separator|..]))
        case (Some(id), Some(index)) =>
          Reassemble(s, body[..k], rest[|Separator|..]);
          DecodedPointer(Pointer(id, index))
        case _ => Unrecognised
      else Unrecognised
    else Unrecognised
  }

  /** Text whose envelope, fields and separator were taken apart is their concatenation. */
  lemma Reassemble(s: string, a: string, b: string)
    requires |s| > |Prefix| && s[..|Prefix|] == Prefix && s[|s| - 1] == '}'
    requires |s[|Prefix|..|s| - 1]| >= |a| + |Separator|
    requires s[|Prefix|..|s| - 1][..|a|] == a
    requires s[|Prefix|..|s| - 1][|a|..][..|Separator|] == Separator
    requires s[|Prefix|..|s| - 1][|a|..][|Separator|..] == b
    ensures s == Prefix + a + Separator + b + "}"
  {
    var body := s[|Prefix|..|s| - 1];
    var rest := body[|a|..];
    assert rest == rest[..|Separator|] + rest[|Separator|..];
    assert body == body[..|a|] + rest;
    assert s == s[..|Prefix|] + body + s[|s| - 1..];
  }

  /** The object braces around a body, as `Decode` takes them apart. */
  lemma Envelope(body: string)
    ensures var s := Prefix + body + "}";
            && s != "null"
            && |s| > |Prefix|
            && s[..|Prefix|] == Prefix
            && s[|s| - 1] == '}'
            && s[|Prefix|..|s| - 1] == body
  {
    var s := Prefix + body + "}";
    assert s[0] == '{';
  }

  /** The two fields of a body, split at its first comma. */
  lemma SplitFields(a: string, b: string)
    requires ',' !in a
    ensures var body := a + Separator + b;
            var k := FirstIndex(body, ',');
            && k == |a|
            && body[..k] == a
            && |body[k..]| >= |Separator|
            && body[k..][..|Separator|] == Separator
            && body[k..][|Separator|..] == b
  {
    var body := a + Separator + b;
    assert body == a + (Separator + b);
    FirstIndexAppend(a, Separator + b, ',');
    assert body[|a|..] == Separator + b;
  }

  /** Text of the encoded shape decodes to the two numerals it holds. */
  lemma DecodeFields(a: string, b: string, id: int, index: int)
    requires ',' !in a
    requires ParseInt(a) == Some(id)
    requires ParseInt(b) == Some(index)
    ensures Decode(Prefix + (a + Separator + b) + "}") == DecodedPointer(Pointer(id, index))
  {
    Envelope(a + Separator + b);
    SplitFields(a, b);
  }

  /**
   * `JSON.stringify` of a pointer whose fields are integers; reading the
   * text back yields the same pointer.
   */
  function Encode(p: Pointer): (r: string)
    ensures Decode(r) == DecodedPointer(p)
  {
    var a := IntToString(p.lessonId);
    var b := IntToString(p.sceneIndex);
    IntRoundTrip(p.lessonId);
    IntRoundTrip(p.sceneIndex);
    IntHasNoComma(p.lessonId);
    DecodeFields(a, b, p.lessonId, p.sceneIndex);
    Prefix + (a + Separator + b) + "}"
  }

  /** Distinct pointers are stored as distinct text. */
  lemma EncodeInjective(p: Pointer, q: Pointer)
    ensures Encode(p) == Encode(q) ==> p == q
  {
  }

  /** Stored pointer text is never empty (so it is truthy) and is not `null`. */
  lemma EncodeIsObjectText(p: Pointer)
    ensures Encode(p) != ""
    ensures Encode(p) != "null"
    ensures Decode(Encode(p)).DecodedPointer?
  {
  }
}

=== FILE: scenarios.dfy ===
/** Concrete runs of the page on small catalogs. */
module Scenarios {
  import opened Wrappers
  import opened Lessons
  import opened FilterEngine
  import opened SceneNavigator
  import opened Persistence
  import opened ViewController

  /** Lesson A: Spanish, two scenes. */
  const LessonA: Lesson :=
    Lesson(1, "A", "Spanish", "beginner", "", [Scene("a0", "", [], [], []), Scene("a1", "", [], [], [])])

  /** Lesson B: French, one scene. */
  const LessonB: Lesson :=
    Lesson(2, "B", "French", "beginner", "", [Scene("b0", "", [], [], [])])

  /** The loaded catalog page with no filter and no open scene. */
  const Start: Page := Page(Session(Loaded([LessonA, LessonB]), All, All, None), map[])

  /** Lesson A is the lesson with identifier 1. */
  lemma FindA()
    ensures FindLesson([LessonA, LessonB], 1) == Some(LessonA)
  {
  }

  /** Of A and B only A is in Spanish. */
  lemma FilterSpanish()
    ensures FilteredLessons([LessonA, LessonB], "Spanish", All) == [LessonA]
  {
    var lessons := [LessonA, LessonB];
    assert lessons[1..] == [LessonB];
    assert lessons[1..][1..] == [];
    assert FilteredLessons([LessonB], "Spanish", All) == [];
  }

  /** Filtering on Spanish lists only lesson A. */
  lemma SelectSpanish()
    ensures Enabled(Start.session, SelectLanguage("Spanish"))
    ensures Present(Step(Start, SelectLanguage("Spanish")).session).entries == [LessonA]
  {
    var lessons := [LessonA, LessonB];
    assert lessons[0].language == "Spanish";
    assert "Spanish" in Languages(lessons);
    FiltersKeepPointer(Start, SelectLanguage("Spanish"));
    FilterSpanish();
  }

  /** The Spanish catalog, lesson A open at scene 0, and lesson A at scene 1. */
  const Filtered: Page := Page(Session(Loaded([LessonA, LessonB]), "Spanish", All, None), map[])
  const Opened: Page :=
    Page(Filtered.session.(active := Some(Pointer(1, 0))), Persist(map[], Some(Pointer(1, 0))))
  const Advanced: Page :=
    Page(Filtered.session.(active := Some(Pointer(1, 1))), Persist(Opened.store, Some(Pointer(1, 1))))

  /** Opening A from the Spanish catalog points at its scene 0, shown in the scene view. */
  lemma OpenA()
    ensures Step(Start, SelectLanguage("Spanish")) == Filtered
    ensures Step(Filtered, OpenLesson(1)) == Opened
    ensures Present(Opened.session).SceneView?
  {
    SelectSpanish();
    FilterSpanish();
    assert LessonA in Present(Filtered.session).entries;
    OpenFromCatalog(Filtered, 1);
    OpenShowsFirstScene(Filtered, 1);
    FindA();
  }

  /** Next from scene 0 of A reaches scene 1 and stores it. */
  lemma NextOnA()
    ensures Step(Opened, NextPressed) == Advanced
    ensures Restore(Advanced.store) == Ok(Some(Pointer(1, 1)))
  {
    FindA();
    OpenA();
    NavigationButtons(Opened.session);
    assert NextScene([LessonA, LessonB], Pointer(1, 0)) == Pointer(1, 1);
    assert Enabled(Opened.session, NextPressed);
    PersistRestore(Opened.store, Some(Pointer(1, 1)));
  }

  /** At scene 1 of A the Next button is disabled, and a further press changes nothing. */
  lemma LastSceneOfA()
    ensures Present(Advanced.session).SceneView?
    ensures Present(Advanced.session).nextDisabled
    ensures Step(Advanced, NextPressed) == Advanced
  {
    FindA();
    assert Resolves([LessonA, LessonB], Pointer(1, 1));
    assert Present(Advanced.session).SceneView?;
    NavigationButtons(Advanced.session);
    assert NextScene([LessonA, LessonB], Pointer(1, 1)) == Pointer(1, 1);
    assert !Enabled(Advanced.session, NextPressed);
  }

  /** An empty catalog offers only `All` in both selects and lists no lesson. */
  lemma EmptyCatalog(language: string, level: string)
    ensures var v := Present(Session(Loaded([]), language, level, None));
            v.languages == [All] && v.levels == [All] && v.entries == []
  {
  }
}

=== FILE: scene_navigator.dfy ===
/**
 * The active-scene pointer and the transitions the scene view offers:
 * open a lesson, close the view, step to the next or previous scene.
 */
module SceneNavigator {
  import opened Wrappers
  import opened Lessons

  /**
   * `{lessonId, sceneIndex}`. A pointer restored from storage is not
   * validated, so the index is any integer and the lesson may be missing.
   */
  datatype Pointer = Pointer(lessonId: int, sceneIndex: int)

  /** The lesson id exists and the index is a valid offset into its scenes. */
  predicate Resolves(lessons: seq<Lesson>, p: Pointer)
  {
    var lesson := FindLesson(lessons, p.lessonId);
    lesson.Some? && 0 <= p.sceneIndex < |lesson.value.scenes|
  }

  /**
   * Opening a lesson from the catalog (`openLessonScene(lessonId, sceneIndex = 0)`):
   * the pointer is built from the arguments without checking them.
   */
  function OpenLessonScene(lessonId: int, sceneIndex: int := 0): Pointer
  {
    Pointer(lessonId, sceneIndex)
  }

  /**
   * `nextScene`: advance only when the lesson exists and the current index is
   * below its last scene; otherwise leave the pointer as it is.
   */
  function NextScene(lessons: seq<Lesson>, p: Pointer): (r: Pointer)
    ensures r.lessonId == p.lessonId
    ensures r.sceneIndex == p.sceneIndex || r.sceneIndex == p.sceneIndex + 1
    ensures r != p ==> HasLesson(lessons, p.lessonId)
    ensures Resolves(lessons, p) ==> Resolves(lessons, r)
  {
    match FindLesson(lessons, p.lessonId)
    case Some(lesson) =>
      if p.sceneIndex < |lesson.scenes| - 1 then p.(sceneIndex := p.sceneIndex + 1) else p
    case None => p
  }

  /** `prevScene`: step back only from a positive index; the lesson is not looked up. */
  function PrevScene(p: Pointer): (r: Pointer)
    ensures r.lessonId == p.lessonId
    ensures r.sceneIndex == p.sceneIndex || r.sceneIndex == p.sceneIndex - 1
    ensures p.sceneIndex >= 0 ==> r.sceneIndex >= 0
  {
    if p.sceneIndex > 0 then p.(sceneIndex := p.sceneIndex - 1) else p
  }

  /** `nextScene` moves exactly when the lesson exists and a later scene does. */
  lemma NextSceneMoves(lessons: seq<Lesson>, p: Pointer)
    ensures NextScene(lessons, p) != p <==>
            (HasLesson(lessons, p.lessonId)
             && p.sceneIndex < |FindLesson(lessons, p.lessonId).value.scenes| - 1)
    ensures NextScene(lessons, p) != p ==> NextScene(lessons, p).sceneIndex == p.sceneIndex + 1
  {
  }

  /** `prevScene` moves exactly when the index is positive, and never below zero. */
  lemma PrevSceneMoves(lessons: seq<Lesson>, p: Pointer)
    ensures PrevScene(p) != p <==> p.sceneIndex > 0
    ensures PrevScene(p) != p ==> PrevScene(p).sceneIndex == p.sceneIndex - 1
    ensures Resolves(lessons, p) ==> Resolves(lessons, PrevScene(p))
  {
  }

  /** From any scene but the last, next then previous returns to the same pointer. */
  lemma NextThenPrev(lessons: seq<Lesson>, p: Pointer)
    requires Resolves(lessons, p)
    requires p.sceneIndex < |FindLesson(lessons, p.lessonId).value.scenes| - 1
    ensures PrevScene(NextScene(lessons, p)) == p
  {
  }

  /** From any scene but the first, previous then next returns to the same pointer. */
  lemma PrevThenNext(lessons: seq<Lesson>, p: Pointer)
    requires Resolves(lessons, p)
    requires p.sceneIndex > 0
    ensures NextScene(lessons, PrevScene(p)) == p
  {
  }
}

=== FILE: sequences.dfy ===
/** Facts about sequences shared by the filters and the pointer codec. */
module Sequences {

  /** Position of the first occurrence of `x` in `xs`; `|xs|` when `x` does not occur. */
  function FirstIndex<T(==)>(xs: seq<T>, x: T): nat
  {
    if |xs| == 0 then 0
    else if xs[0] == x then 0
    else 1 + FirstIndex(xs[1..], x)
  }

  /** The first index is a position of `x` (or the length), and no earlier element is `x`. */
  lemma {:induction false} FirstIndexBound<T>(xs: seq<T>, x: T)
    ensures FirstIndex(xs, x) <= |xs|
    ensures FirstIndex(xs, x) < |xs| <==> x in xs
    ensures FirstIndex(xs, x) < |xs| ==> xs[FirstIndex(xs, x)] == x
    ensures forall j :: 0 <= j < FirstIndex(xs, x) ==> xs[j] != x
    decreases |xs|
  {
    if |xs| > 0 && xs[0] != x {
      FirstIndexBound(xs[1..], x);
      assert x in xs <==> x in xs[1..] by {
        assert xs == [xs[0]] + xs[1..];
      }
      forall j | 0 < j < FirstIndex(xs, x)
        ensures xs[j] != x
      {
        assert xs[j] == xs[1..][j - 1];
      }
    }
  }

  /** First occurrences in a concatenation: those of the left part come first. */
  lemma {:induction false} FirstIndexAppend<T>(p: seq<T>, q: seq<T>, x: T)
    ensures x in p ==> FirstIndex(p + q, x) == FirstIndex(p, x)
    ensures x !in p ==> FirstIndex(p + q, x) == |p| + FirstIndex(q, x)
    decreases |p|
  {
    if |p| > 0 {
      assert (p + q)[1..] == p[1..] + q;
      if p[0] != x {
        FirstIndexAppend(p[1..], q, x);
        assert x in p <==> x in p[1..] by {
          assert p == [p[0]] + p[1..];
        }
      }
    } else {
      assert p + q == q;
    }
  }
}

=== FILE: view_controller.dfy ===
/**
 * The lesson page as a state machine: the session state, the presentation
 * chosen from it, the events the presentation offers, and the write-back of
 * the pointer after each change.
 */
module ViewController {
  import opened Wrappers
  import opened Lessons
  import opened FilterEngine
  import opened SceneNavigator
  import opened PointerCodec
  import opened Persistence

  /** Outcome of the one catalog request. */
  datatype LoadState = Loading | Loaded(lessons: seq<Lesson>) | Failed(message: string)

  /** The lesson list the page holds: empty until a request succeeds. */
  function LessonsOf(load: LoadState): seq<Lesson>
  {
    if load.Loaded? then load.lessons else []
  }

  /** Everything the page keeps between events. */
  datatype Session = Session(
    load: LoadState,
    language: string,
    level: string,
    active: Option<Pointer>)

  /** The session together with browser storage. */
  datatype Page = Page(session: Session, store: Store)

  /** What the page shows. `Blank` is the page rendering nothing at all. */
  datatype View =
    | Spinner
    | ErrorBanner(message: string)
    | SceneView(lesson: Lesson, index: int, scene: Scene, prevDisabled: bool, nextDisabled: bool)
    | Blank
    | Catalog(languages: seq<string>, levels: seq<string>, entries: seq<Lesson>,
              language: string, level: string)

  /** The failure message shows only when it is non-empty (`if (error)`). */
  predicate ShowsError(load: LoadState)
  {
    load.Failed? && load.message != ""
  }

  /**
   * The presentation, checked in order: loading, error, active pointer,
   * catalog. Past loading and error it is the scene view exactly when the
   * pointer resolves, a blank page exactly when a pointer is set but does
   * not resolve, and the catalog exactly when no pointer is set.
   */
  function Present(s: Session): (v: View)
    ensures s.load.Loading? ==> v == Spinner
    ensures !s.load.Loading? && ShowsError(s.load) ==> v == ErrorBanner(s.load.message)
    ensures !s.load.Loading? && !ShowsError(s.load) ==>
            && (v.SceneView? <==> s.active.Some? && Resolves(LessonsOf(s.load), s.active.value))
            && (v.Blank? <==> s.active.Some? && !Resolves(LessonsOf(s.load), s.active.value))
            && (v.Catalog? <==> s.active.None?)
    ensures v.Catalog? ==>
              v == Catalog(Languages(LessonsOf(s.load)), Levels(LessonsOf(s.load)),
                           FilteredLessons(LessonsOf(s.load), s.language, s.level),
                           s.language, s.level)
  {
    var lessons := LessonsOf(s.load);
    if s.load.Loading? then Spinner
    else if ShowsError(s.load) then ErrorBanner(s.load.message)
    else match s.active
      case Some(p) =>
        (match FindLesson(lessons, p.lessonId)
         case Some(lesson) =>
           if 0 <= p.sceneIndex < |lesson.scenes| then
             SceneView(lesson, p.sceneIndex, lesson.scenes[p.sceneIndex],
                       p.sceneIndex == 0, p.sceneIndex >= |lesson.scenes| - 1)
           else Blank
         case None => Blank)
      case None =>
        Catalog(Languages(lessons), Levels(lessons),
                FilteredLessons(lessons, s.language, s.level), s.language, s.level)
  }

  /** What can happen to the page: the request completing, or a user action. */
  datatype Event =
    | FetchSucceeded(lessons: seq<Lesson>)
    | FetchFailed(message: string)
    | SelectLanguage(value: string)
    | SelectLevel(value: string)
    | OpenLesson(lessonId: int)
    | CloseScene
    | NextPressed
    | PrevPressed

  /**
   * The event is possible in the current presentation: the request completes
   * only while loading; each control exists only in its view, a select offers
   * only its options, and a disabled button does nothing.
   */
  predicate Enabled(s: Session, e: Event)
    ensures Enabled(s, e) && !e.FetchSucceeded? && !e.FetchFailed? ==>
              Present(s).Catalog? || Present(s).SceneView?
    ensures (e.NextPressed? || e.PrevPressed?) && s.active.Some? && Present(s).SceneView? ==>
              (Enabled(s, e) <==> Apply(s, e) != s)
    ensures e.SelectLanguage? && Enabled(s, e) ==> e.value in Languages(LessonsOf(s.load))
    ensures e.SelectLevel? && Enabled(s, e) ==> e.value in Levels(LessonsOf(s.load))
    ensures e.OpenLesson? && Enabled(s, e) ==>
              && s.active.None?
              && exists l :: l in FilteredLessons(LessonsOf(s.load), s.language, s.level) && l.id == e.lessonId
    ensures e.CloseScene? ==> (Enabled(s, e) <==> Present(s).SceneView?)
    ensures (e.NextPressed? || e.PrevPressed?) && Enabled(s, e) ==> Present(s).SceneView?
  {
    var v := Present(s);
    match e
    case FetchSucceeded(_) => s.load.Loading?
    case FetchFailed(_) => s.load.Loading?
    case SelectLanguage(value) => v.Catalog? && value in v.languages
    case SelectLevel(value) => v.Catalog? && value in v.levels
    case OpenLesson(id) => v.Catalog? && exists l :: l in v.entries && l.id == id
    case CloseScene => v.SceneView?
    case NextPressed => v.SceneView? && !v.nextDisabled
    case PrevPressed => v.SceneView? && !v.prevDisabled
  }

  /**
   * The state change an event's handler makes: the request outcome sets only
   * the load state, a select only its filter, and the scene actions only the
   * pointer.
   */
  function Apply(s: Session, e: Event): (r: Session)
    ensures r.load != s.load ==> e.FetchSucceeded? || e.FetchFailed?
    ensures r.language != s.language ==> e.SelectLanguage?
    ensures r.level != s.level ==> e.SelectLevel?
    ensures r.active != s.active ==> e.OpenLesson? || e.CloseScene? || e.NextPressed? || e.PrevPressed?
    ensures e.OpenLesson? ==> r.active == Some(Pointer(e.lessonId, 0))
    ensures e.CloseScene? ==> r.active.None?
    ensures e.FetchSucceeded? ==> r.load == Loaded(e.lessons)
    ensures e.FetchFailed? ==> r.load == Failed(e.message)
    ensures e.SelectLanguage? ==> r.language == e.value
    ensures e.SelectLevel? ==> r.level == e.value
    ensures e.NextPressed? && s.active.Some? ==>
              r.active == Some(NextScene(LessonsOf(s.load), s.active.value))
    ensures e.PrevPressed? && s.active.Some? ==> r.active == Some(PrevScene(s.active.value))
    ensures (e.NextPressed? || e.PrevPressed?) && s.active.None? ==> r == s
  {
    match e
    case FetchSucceeded(lessons) => s.(load := Loaded(lessons))
    case FetchFailed(message) => s.(load := Failed(message))
    case SelectLanguage(value) => s.(language := value)
    case SelectLevel(value) => s.(level := value)
    case OpenLesson(id) => s.(active := Some(OpenLessonScene(id, 0)))
    case CloseScene => s.(active := None)
    case NextPressed =>
      (match s.active
       case Some(p) => s.(active := Some(NextScene(LessonsOf(s.load), p)))
       case None => s)
    case PrevPressed =>
      (match s.active
       case Some(p) => s.(active := Some(PrevScene(p)))
       case None => s)
  }

  /**
   * One event: the handler runs if the event is possible, and the write-back
   * effect runs when the pointer changed. An impossible event changes
   * nothing, storage stays in step with the pointer, and no other storage
   * key is touched.
   */
  function Step(page: Page, e: Event): (r: Page)
    ensures !Enabled(page.session, e) ==> r == page
    ensures Enabled(page.session, e) ==> r.session == Apply(page.session, e)
    ensures Synced(page.store, page.session.active) ==> Synced(r.store, r.session.active)
    ensures forall k :: k != StorageKey ==> (k in r.store <==> k in page.store)
    ensures forall k :: k != StorageKey && k in r.store ==> r.store[k] == page.store[k]
  {
    if !Enabled(page.session, e) then page
    else
      var s' := Apply(page.session, e);
      var store' := if s'.active == page.session.active then page.store
                    else Persist(page.store, s'.active);
      Page(s', store')
  }

  /**
   * Page start: restore the pointer, then run the write-back effect once.
   * It fails exactly when non-empty stored text does not parse; otherwise it
   * starts loading with both filters at `All` and storage in step with the
   * restored pointer, and no other storage key is touched.
   */
  function Mount(store: Store): (r: Result<Page, StartupError>)
    ensures r.Err? <==>
              && StorageKey in store
              && store[StorageKey] != ""
              && Decode(store[StorageKey]).Unrecognised?
    ensures r.Ok? ==>
              && r.value.session == Session(Loading, All, All, Restore(store).value)
              && Synced(r.value.store, r.value.session.active)
    ensures r.Ok? ==> forall k :: k != StorageKey ==> (k in r.value.store <==> k in store)
    ensures r.Ok? ==> forall k :: k != StorageKey && k in store ==> r.value.store[k] == store[k]
  {
    match Restore(store)
    case Ok(active) =>
      PersistRestore(store, active);
      Ok(Page(Session(Loading, All, All, active), Persist(store, active)))
    case Err(e) => Err(e)
  }

  /** A sequence of events, in order. */
  function Run(page: Page, events: seq<Event>): Page
    decreases |events|
  {
    if |events| == 0 then page else Run(Step(page, events[0]), events[1..])
  }

  /** The scene view shows scene `sceneIndex` of the first lesson whose id is `lessonId`. */
  lemma SceneViewShowsPointer(s: Session)
    requires Present(s).SceneView?
    ensures s.active.Some?
    ensures Present(s).lesson == FindLesson(LessonsOf(s.load), s.active.value.lessonId).value
    ensures Present(s).index == s.active.value.sceneIndex
    ensures Present(s).scene == Present(s).lesson.scenes[Present(s).index]
  {
  }

  /**
   * The Back button is disabled exactly when `prevScene` would not move, and
   * the Next button exactly when `nextScene` would not move.
   */
  lemma NavigationButtons(s: Session)
    requires Present(s).SceneView?
    ensures Present(s).prevDisabled <==> PrevScene(s.active.value) == s.active.value
    ensures Present(s).nextDisabled <==> NextScene(LessonsOf(s.load), s.active.value) == s.active.value
  {
    NextSceneMoves(LessonsOf(s.load), s.active.value);
  }

  /** Next and Back move within the same lesson and stay in the scene view. */
  lemma NavigationStaysInScene(page: Page, e: Event)
    requires Present(page.session).SceneView?
    requires e == NextPressed || e == PrevPressed
    requires Enabled(page.session, e)
    ensures var v := Present(page.session);
            var v' := Present(Step(page, e).session);
            && v'.SceneView?
            && v'.lesson == v.lesson
            && v'.index == (if e == NextPressed then v.index + 1 else v.index - 1)
  {
    var s := page.session;
    NextSceneMoves(LessonsOf(s.load), s.active.value);
  }

  /** Changing a filter changes neither the pointer nor storage, and only the catalog reacts. */
  lemma FiltersKeepPointer(page: Page, e: Event)
    requires e.SelectLanguage? || e.SelectLevel?
    ensures Step(page, e).session.active == page.session.active
    ensures Step(page, e).session.load == page.session.load
    ensures Step(page, e).store == page.store
    ensures Enabled(page.session, e) ==> Present(Step(page, e).session).Catalog?
  {
  }

  /** Opening a lesson from the catalog points at its scene 0 and stores that pointer. */
  lemma OpenFromCatalog(page: Page, id: int)
    requires Enabled(page.session, OpenLesson(id))
    ensures Step(page, OpenLesson(id)).session.active == Some(Pointer(id, 0))
    ensures Restore(Step(page, OpenLesson(id)).store) == Ok(Some(Pointer(id, 0)))
  {
    PersistRestore(page.store, Some(Pointer(id, 0)));
  }

  /**
   * After opening a lesson from the catalog, the scene view shows scene 0
   * when the first lesson with that id has a scene; a lesson without scenes
   * renders nothing.
   */
  lemma OpenShowsFirstScene(page: Page, id: int)
    requires Enabled(page.session, OpenLesson(id))
    ensures var lesson := FindLesson(LessonsOf(page.session.load), id);
            var v := Present(Step(page, OpenLesson(id)).session);
            && lesson.Some?
            && (v.SceneView? <==> |lesson.value.scenes| > 0)
            && (v.SceneView? ==> v.lesson == lesson.value && v.index == 0)
  {
    var s := page.session;
    CatalogEntryExists(s, id);
    var s' := s.(active := Some(Pointer(id, 0)));
    assert Step(page, OpenLesson(id)).session == s';
    if Present(s').SceneView? {
      SceneViewShowsPointer(s');
    }
  }

  /** A lesson the catalog lists is found by its identifier. */
  lemma CatalogEntryExists(s: Session, id: int)
    requires Enabled(s, OpenLesson(id))
    ensures s.active.None?
    ensures HasLesson(LessonsOf(s.load), id)
  {
    var lessons := LessonsOf(s.load);
    var entries := FilteredLessons(lessons, s.language, s.level);
    assert Present(s) == Catalog(Languages(lessons), Levels(lessons), entries, s.language, s.level);
    var l :| l in entries && l.id == id;
    assert l in lessons;
    var i :| 0 <= i < |lessons| && lessons[i] == l;
    assert lessons[i].id == id;
  }

  /** Closing the scene view returns to the catalog and removes the stored pointer. */
  lemma CloseToCatalog(page: Page)
    requires Present(page.session).SceneView?
    ensures Present(Step(page, CloseScene).session).Catalog?
    ensures StorageKey !in Step(page, CloseScene).store
    ensures Restore(Step(page, CloseScene).store) == Ok(None)
  {
  }

  /**
   * A pointer restored from storage whose lesson is not in the loaded catalog
   * renders nothing once the lessons arrive; it is not replaced by the catalog.
   */
  lemma StalePointerRendersNothing(page: Page, lessons: seq<Lesson>)
    requires page.session.load.Loading?
    requires page.session.active.Some?
    requires !HasLesson(lessons, page.session.active.value.lessonId)
    ensures Present(Step(page, FetchSucceeded(lessons)).session) == Blank
    ensures Step(page, FetchSucceeded(lessons)).session.active == page.session.active
  {
  }

  /** A blank page offers no control: no event changes it any more. */
  lemma {:induction false} BlankIsFinal(page: Page, events: seq<Event>)
    requires Present(page.session).Blank?
    ensures Run(page, events) == page
    decreases |events|
  {
    if |events| > 0 {
      assert !Enabled(page.session, events[0]);
      BlankIsFinal(page, events[1..]);
    }
  }

  /** A failure with an empty message is not shown; the page proceeds with no lessons. */
  lemma SilentFailure(s: Session)
    requires s.load == Failed("")
    ensures Present(s) == Present(s.(load := Loaded([])))
  {
  }

  /**
   * After the request completes, no event turns a non-blank page blank,
   * except opening a lesson whose first lesson with that id has no scenes.
   */
  lemma StepAvoidsBlank(page: Page, e: Event)
    requires !page.session.load.Loading?
    requires !Present(page.session).Blank?
    requires e.OpenLesson? ==>
               var lesson := FindLesson(LessonsOf(page.session.load), e.lessonId);
               lesson.Some? && |lesson.value.scenes| > 0
    ensures !Present(Step(page, e).session).Blank?
  {
    if Enabled(page.session, e) && (e.NextPressed? || e.PrevPressed?) {
      NavigationStaysInScene(page, e);
    }
  }

  /**
   * The pointer survives a reload: after any events following page start,
   * reading storage afresh yields the pointer the page holds.
   */
  lemma {:induction false} ReloadRestoresPointer(store: Store, events: seq<Event>)
    requires Mount(store).Ok?
    ensures Restore(Run(Mount(store).value, events).store) ==
            Ok(Run(Mount(store).value, events).session.active)
  {
    RunSynced(Mount(store).value, events);
    var final := Run(Mount(store).value, events);
    SyncedRestores(final.store, final.session.active);
  }

  lemma {:induction false} RunSynced(page: Page, events: seq<Event>)
    requires Synced(page.store, page.session.active)
    ensures Synced(Run(page, events).store, Run(page, events).session.active)
    decreases |events|
  {
    if |events| > 0 {
      RunSynced(Step(page, events[0]), events[1..]);
    }
  }

  /** Storage keys other than the pointer's are never touched. */
  lemma {:induction false} RunKeepsOtherKeys(page: Page, events: seq<Event>, k: string)
    requires k != StorageKey
    ensures k in Run(page, events).store <==> k in page.store
    ensures k in page.store ==> Run(page, events).store[k] == page.store[k]
    decreases |events|
  {
    if |events| > 0 {
      RunKeepsOtherKeys(Step(page, events[0]), events[1..], k);
    }
  }
}

=== FILE: wrappers.dfy ===
/** Option and Result datatypes used throughout the model. */
module Wrappers {

  /** An optional value: `None` stands for JavaScript's `null` / `undefined`. */
  datatype Option<+T> = None | Some(value: T)

  /** The outcome of an operation that can fail with an error value. */
  datatype Result<+R, +E> = Ok(value: R) | Err(error: E)
}
